=== FILE: README.md ===
# Falcon-Trans signature service — a Dafny model of its upload and signing plumbing

The service stamps a signature block (seal plus director's signature) onto
uploaded PDF documents. Three pieces of it carry logic with statable
contracts, and this project models and proves them:

* **Batch page** (`static/js/batch.js`): the upload queue — which dropped
  files are admitted, de-duplication by name and size, order-preserving
  append, removal by name, when the "run" button is enabled — and what the
  page does with the server's per-file results (success/failure split, the
  final message, the name a downloaded file is saved under).
* **Single-file pages** (`static/js/app.js`, `static/js/app_simple.js`): the
  PDF test and the 16 MiB size limit in their fixed order, the page's two
  globals (`currentFile`, `downloadFilename`), the download guard, the reset,
  and the simulated progress bar with its 90% cap and captions.
* **Server** (`app.py`): the `/upload` validation chain, the signed file's
  name (`os.path.splitext` of the sanitised name, with `_с_подписью` inserted
  before the extension), and the page assembly — every page copied in order,
  only page 0 merged with an overlay the size of page 0's media box, holding a
  200 × 100 pt image placed in user space at y = 50 with its right edge at
  the page width minus 50 — 50 pt in from the page's right and bottom edges
  when the media box starts at (0, 0).

Modules: `Results` (Option/Result), `Sequences` (order-preserving
sub-sequences), `Text` (lower-casing, suffix and substring tests,
first-occurrence replacement), `Files` (the browser's file record, the ".pdf"
extension test, the 16 MiB limit), `BatchQueue`, `BatchResults`,
`SingleUpload`, `Progress`, `SimpleUpload`, `PagePipeline`, `UploadRoute`, and
`ClientServer` (how the single-file page consumes the route's answer).

Everything outside the modelled logic enters as a parameter: werkzeug's
`secure_filename` is a function `string -> string`; PDF parsing is an
`Option<seq<P>>` of opaque pages (None for an unreadable file); the media box
reader is `P -> Box`; PyPDF2's `merge_page` is `(P, Overlay) -> P`;
`Math.random() * 15` is a sequence of non-negative increments; the server's
JSON answers are datatypes.

## Model

| member | source | states |
|---|---|---|
| `Files.PdfExtensionIgnoresCase` | static/js/batch.js:41 | the extension test accepts ".pdf", ".PDF" and ".Pdf" after any stem and refuses ".pdf.txt" |
| `BatchQueue.AddFiles` | static/js/batch.js:39-49 | the old queue is a prefix of the result; the new entries are a sub-sequence of the dropped files in their order, each admissible (PDF MIME type or ".pdf" name) and not already queued by name and size; each new entry is the first admissible dropped copy of its name and size, the new entries are pairwise distinct by name and size and appear in the order of those first copies in the drop; every admissible dropped file ends up queued; a queue free of name-and-size duplicates stays free of them |
| `BatchQueue.AddFilesAlreadyQueued` | static/js/batch.js:40-47 | dropping files that are all refused or already queued leaves the queue unchanged |
| `BatchQueue.AddFilesIdempotent` | static/js/batch.js:43-44 | dropping the same files twice gives the same queue as dropping them once |
| `BatchQueue.RemoveFile` | static/js/batch.js:51-54 | no remaining entry has the removed name; the result is a sub-sequence of the queue; every entry with another name keeps its multiplicity |
| `BatchQueue.RunEnabledAfterAdd` | static/js/batch.js:36 | after adding, the run button is enabled iff the queue was non-empty or some dropped file was admissible |
| `BatchQueue.RunEnabledAfterRemove` | static/js/batch.js:217-238 | after removing a name, the run button is enabled iff some entry had a different name |
| `BatchQueue.OnRun` | static/js/batch.js:90-94 | clicking run on an empty queue changes nothing and submits nothing; otherwise the whole queue is submitted and the button disabled |
| `BatchQueue.EmptyQueueReenabledIsHarmless` | static/js/batch.js:150-153 | emptying the queue during a run and letting the run finish leaves the button enabled on an empty queue, and clicking it submits nothing |
| `BatchResults.SplitResults` | static/js/batch.js:128-138 | the ok list holds only successes, the bad list only failures, both are order-preserving sub-sequences of the items, and together they are a permutation of the items |
| `BatchResults.FinishBatch` | static/js/batch.js:114-144 | the report is an error iff the request failed or the answer says `success: false`, and then nothing is downloaded; otherwise the downloads are an order-preserving sub-sequence of the items holding every successful item with its multiplicity and no failed one; "nothing processed" iff no item succeeded; the partial message counts processed and failed items, which sum to the item count |
| `BatchResults.DownloadName` | static/js/batch.js:434 | a name without ".pdf" is unchanged; otherwise the leftmost ".pdf" (case-sensitive) is replaced by "_с_подписью.pdf" and nothing else changes |
| `BatchResults.DownloadNameOfPdf` | static/js/batch.js:434 | `stem.pdf` with no earlier ".pdf" becomes `stem_с_подписью.pdf` |
| `BatchResults.DownloadNameExamples` | static/js/batch.js:434 | "a.pdf.pdf" has only its first ".pdf" rewritten and "A.PDF" is not rewritten |
| `SingleUpload.HandleFile` | static/js/app.js:109-133 | a file is uploaded iff it passes the PDF test (MIME "application/pdf" or "pdf", or a ".pdf" name) and is at most 16 MiB; a non-PDF gets the PDF error whatever its size; only an accepted file becomes `currentFile`, otherwise the session is unchanged |
| `SingleUpload.RejectedFileNotRemembered` | static/js/app.js:117-128 | a rejected file leaves both globals unchanged and is never uploaded |
| `SingleUpload.HandleSelection` | static/js/app.js:85-106 | an empty selection does nothing; an upload starts iff the selection's first file passes the PDF test and is at most 16 MiB, and it uploads that file and remembers it as `currentFile`, keeping `downloadFilename`; a first file failing the PDF test shows the PDF error, a PDF over 16 MiB the size error, and either leaves the session unchanged |
| `SingleUpload.OnlyFirstFileMatters` | static/js/app.js:92-94 | files after the first one in a selection have no influence on the outcome |
| `SingleUpload.OnUploadReply` | static/js/app.js:164-177 | only a successful answer records `downloadFilename` (the answer's name); a network or JSON failure shows the connection error and an answer without `success` shows the server's error, and neither changes the session |
| `SingleUpload.DownloadFile` | static/js/app.js:262-274 | a download starts iff `downloadFilename` is set and non-empty, and then its href is "/download/" + the name; otherwise only an error is shown |
| `SingleUpload.ResetForgetsEverything` | static/js/app.js:281-285 | after a reset there is no current file and the download button only reports an error |
| `SingleUpload.DownloadAfterSuccess` | static/js/app.js:167-168 | after a successful answer with a non-empty name, downloading fetches "/download/" + that name |
| `Progress.SimulateProgress` | static/js/app.js:181-193 | each width is the running total of the increments capped at 90; widths stay in [0, 90] and never decrease; the bar stops exactly at the first tick whose total exceeds 90 |
| `Progress.StageFollowsProgress` | static/js/app.js:195-201 | the caption is "uploading" below 30, "processing" below 60, "adding the signature" from 60 on, never goes back as the bar advances, and reads "adding the signature" at the cap |
| `SimpleUpload.UploadFile` | static/js/app_simple.js:51-68 | a file is posted iff its MIME type contains "pdf" or its name has a ".pdf" extension, and it is at most 16 MiB; the type is checked first; a rejected file is never posted |
| `SimpleUpload.OnReply` | static/js/app_simple.js:79-96 | a successful answer downloads "/download/" + filename under that name; an answer with `success: false` is a server-error alert whatever else it carries; every outcome other than a download is an alert |
| `SimpleUpload.AcceptsEveryValidPdf` | static/js/app_simple.js:55 | every file the full page accepts as a PDF is accepted by the simple page |
| `SimpleUpload.AcceptsMoreThanFullPage` | static/js/app_simple.js:55 | the converse fails: "application/x-pdf" passes only the simple page |
| `SimpleUpload.SizeLimitBoundary` | static/js/app_simple.js:61-64 | exactly 16 MiB is accepted by both pages and one byte more is refused |
| `PagePipeline.StampRect` | app.py:143-149 | the image is 200 × 100 at user-space y = 50 with its right edge 50 pt left of the page width; the media box's corner does not enter |
| `PagePipeline.StampInsideIff` | app.py:126-146 | the unclamped image lies on a page whose media box starts at (0, 0) iff the page is at least 250 pt wide and 150 pt tall; for any media box it lies on the page iff the box's corner and extent contain the fixed user-space spot |
| `PagePipeline.StampMissesRaisedBox` | app.py:126-146 | on a media box `[0 100 612 892]` the image's lower half falls below the visible page, and on any media box whose bottom edge is at 150 pt or higher the whole image lies below it |
| `PagePipeline.BuildOverlay` | app.py:126-149 | the overlay page has page 0's width and height with its corner at (0, 0); the 200 × 100 image sits 50 pt from its right and bottom edges, and lies on it iff page 0 is at least 250 × 150 pt |
| `PagePipeline.AssemblePages` | app.py:156-161 | the output has as many pages as the input, page 0 is the merge of page 0 with the overlay, every other page is copied unchanged in place |
| `PagePipeline.AddSignature` | app.py:119-161 | a document without pages fails; otherwise the overlay built from page 0's media box is merged onto page 0 only and all pages are kept in order |
| `UploadRoute.SplitExt` | app.py:193 | stem + extension is the name; the extension is non-empty iff the name has a last dot with neither dot nor '/' after it and a non-dot character before it in the base name, and then it starts at that dot |
| `UploadRoute.OutputNameKeepsExtension` | app.py:193-194 | splitting the signed name gives the original stem followed by "_с_подписью" and the original extension |
| `UploadRoute.OutputNameOfPdf` | app.py:188-194 | a sanitised `stem.pdf` becomes `stem_с_подписью.pdf` |
| `UploadRoute.LeadingDotIsNotExtension` | app.py:193-194 | ".pdf" has no extension, and "pdf" is signed as "pdf_с_подписью" with no extension |
| `UploadRoute.ValidateUpload` | app.py:176-184 | a request passes iff the body is within 16 MiB, the `file` field is present, its name is non-empty and ends in ".pdf" in any case; the checks run in that order, an oversized body is a 413 and the others are 400s |
| `UploadRoute.UploadFile` | app.py:174-210 | a validation failure is returned as is; a valid upload is signed iff it parses and has a page, otherwise it is a 500; a signed answer is named after the sanitised name and holds the input pages with only page 0 stamped |
| `ClientServer.OutputNameNeverEmpty` | app.py:194 | the signed name always contains "_с_подписью" and so is never empty |
| `ClientServer.DownloadFollowsSignedUpload` | static/js/app.js:263-271 | after the route signs a file, the single-file page's download fetches "/download/" + the signed name |

## Left out

- Page rotation, crop box and media-box origin: `app.py` reads only the width and height of page 0's media box (app.py:126-128) and never clamps the image.
- Seal and signature-block drawing (`create_company_seal`, `create_signature_block`): raster drawing with floating-point angles; the image is opaque.
- PyPDF2, reportlab and werkzeug: parsing, serialising, `merge_page`, media-box reading and `secure_filename` are parameters, not modelled.
- File-system work (saving the upload, the temporary PNG, writing the output, `os.unlink`) and the `/download`, `/` and `/health` routes: I/O.
- The text of error messages (including `str(e)` in the 500 answer): errors are an enumeration with their HTTP status.
- The request-body limit is modelled on a `contentLength` parameter; the framework measures the whole multipart body, which this model does not construct.
- DOM rendering, notifications, drag-and-drop wiring, `beforeunload`, `keep-alive.js`: user interface and timers.
- `fetch`, `FormData` and the paced sequential downloads of `downloadFilesSequentially`: network and timing; the model keeps only which items are downloaded and in what order.
- Millimetre/point and millimetre/percent conversions, `formatFileSize`, `applyStandardCoordinates`, `updateSealPreview`: floating-point display arithmetic.
- The `processFiles`/`showResults`/`updateFileStatuses`/`downloadAllFiles` path of `batch.js`: no listener in `initializeButtons` calls `processFiles` (batch.js:69-87), and it would stop at once by reading the undeclared `selectedFiles` (batch.js:301), so its assignment to `processedResults` (batch.js:361) never happens. The "download all" button's `downloadAllFiles` then reads `processedResults`, which was never created, and throws a ReferenceError (batch.js:441-447), so `downloadFile`'s rename (batch.js:434) never runs. `BatchResults.DownloadName` models that rename as written, but the live path, `downloadFilesSequentially`, saves each file under `item.filename` unchanged (batch.js:199-207), and `BatchResults.FinishBatch` downloads the items as they are.
- `optimize_images.py`, `create_test_pdf.py`: standalone file-I/O scripts.
- Text.LowerChar: maps only A-Z; the browser's and Python's lower-casing cover all of Unicode, which changes no outcome of a ".pdf" suffix test but is not modelled.
- Progress.SimulateProgress: the increments are given, not drawn from `Math.random() * 15`; the contract holds for any non-negative increments.
- Progress.SimulateProgress: widths are exact sums of reals, not rounded IEEE doubles; a run of small increments that sums to just over 90 in exact arithmetic could round to 90 or below in JavaScript.

=== FILE: batch_queue.dfy ===
/** The upload queue of the batch page: the files waiting to be stamped,
    how new files are admitted, how one is removed, and when the "run"
    button is enabled. */
module BatchQueue {
  import opened Results
  import opened Sequences
  import opened Files

  /** A dropped or picked file is queued only if it is a PDF by MIME type
      or by a ".pdf" extension in any case. */
  predicate Admissible(f: FileRecord)
  {
    f.mimeType == PdfMimeType || HasPdfExtension(f.name)
  }

  /** Two files are taken to be the same upload when name and size agree. */
  predicate SameFile(a: FileRecord, b: FileRecord)
  {
    a.name == b.name && a.size == b.size
  }

  predicate Queued(queue: seq<FileRecord>, f: FileRecord)
  {
    exists i :: 0 <= i < |queue| && SameFile(queue[i], f)
  }

  /** No two queue entries have both the same name and the same size. */
  predicate NoDuplicates(queue: seq<FileRecord>)
  {
    forall i, j :: 0 <= i < j < |queue| ==> !SameFile(queue[i], queue[j])
  }

  /** The position of the first admissible file of `incoming` with the same
      name and size as `f`, or `|incoming|` when there is none: where the
      admission loop takes `f`'s entry from. */
  function FirstIndex(incoming: seq<FileRecord>, f: FileRecord): (j: nat)
    ensures j <= |incoming|
    ensures j < |incoming| ==> Admissible(incoming[j]) && SameFile(incoming[j], f)
  {
    if |incoming| == 0 then 0
    else if Admissible(incoming[0]) && SameFile(incoming[0], f) then 0
    else 1 + FirstIndex(incoming[1..], f)
  }

  /** No admissible copy of `f` comes before `FirstIndex(incoming, f)`. */
  lemma {:induction false} FirstIndexIsLeast(incoming: seq<FileRecord>, f: FileRecord, k: nat)
    requires k < FirstIndex(incoming, f)
    ensures !(Admissible(incoming[k]) && SameFile(incoming[k], f))
    decreases k
  {
    if k > 0 {
      FirstIndexIsLeast(incoming[1..], f, k - 1);
      assert incoming[k] == incoming[1..][k - 1];
    }
  }

  /** One iteration of the admission loop. */
  function AddOne(queue: seq<FileRecord>, f: FileRecord): seq<FileRecord>
  {
    if Admissible(f) && !Queued(queue, f) then queue + [f] else queue
  }

  lemma QueuedExtends(queue: seq<FileRecord>, longer: seq<FileRecord>, f: FileRecord)
    requires |queue| <= |longer| && longer[..|queue|] == queue
    requires Queued(queue, f)
    ensures Queued(longer, f)
  {
    var i :| 0 <= i < |queue| && SameFile(queue[i], f);
    assert longer[i] == queue[i];
  }

  /** `addFiles`: every file of `incoming`, in order, is appended when it is
      admissible and no entry (old, or added earlier in the same call) is the
      same file. */
  function AddFiles(queue: seq<FileRecord>, incoming: seq<FileRecord>): (r: seq<FileRecord>)
    ensures |queue| <= |r| && r[..|queue|] == queue
    ensures IsSubsequence(r[|queue|..], incoming)
    ensures forall i :: |queue| <= i < |r| ==> Admissible(r[i]) && !Queued(queue, r[i])
    ensures forall f :: f in incoming && Admissible(f) ==> Queued(r, f)
    ensures forall i :: |queue| <= i < |r| ==>
              FirstIndex(incoming, r[i]) < |incoming| && r[i] == incoming[FirstIndex(incoming, r[i])]
    ensures NoDuplicates(r[|queue|..])
    ensures forall i, j :: |queue| <= i < j < |r| ==> FirstIndex(incoming, r[i]) < FirstIndex(incoming, r[j])
    ensures NoDuplicates(queue) ==> NoDuplicates(r)
    decreases |incoming|
  {
    if |incoming| == 0 then queue
    else
      var f := incoming[0];
      var next := AddOne(queue, f);
      var r := AddFiles(next, incoming[1..]);
      OrderStep(queue, incoming, next, r);
      AdmissionStep(queue, incoming, next, r);
      assert NoDuplicates(queue) ==> NoDuplicates(next);
      FirstCopyStep(queue, incoming, next, r);
      NewEntriesFacts(queue, incoming, next, r);
      OrderOfNewEntriesStep(queue, incoming, next, r);
      r
  }

  /** The induction step for the order of new entries: the head of the
      drop, if taken, has position 0, and every entry the recursive call adds
      is a different file, so its position in the whole drop is one more
      than in the rest. */
  lemma OrderOfNewEntriesStep(queue: seq<FileRecord>, incoming: seq<FileRecord>,
                              next: seq<FileRecord>, r: seq<FileRecord>)
    requires |incoming| > 0 && next == AddOne(queue, incoming[0])
    requires |next| <= |r| && r[..|next|] == next
    requires forall i :: |next| <= i < |r| ==> !Queued(next, r[i])
    requires forall i, j :: |next| <= i < j < |r| ==>
               FirstIndex(incoming[1..], r[i]) < FirstIndex(incoming[1..], r[j])
    ensures forall i, j :: |queue| <= i < j < |r| ==> FirstIndex(incoming, r[i]) < FirstIndex(incoming, r[j])
  {
    forall i, j | |queue| <= i < j < |r|
      ensures FirstIndex(incoming, r[i]) < FirstIndex(incoming, r[j])
    {
      OrderedPair(queue, incoming, next, r, i, j);
    }
  }

  /** One pair of new entries in the induction step for their order. */
  lemma OrderedPair(queue: seq<FileRecord>, incoming: seq<FileRecord>,
                    next: seq<FileRecord>, r: seq<FileRecord>, i: nat, j: nat)
    requires |incoming| > 0 && next == AddOne(queue, incoming[0])
    requires |next| <= |r| && r[..|next|] == next
    requires |queue| <= i < j < |r|
    requires !Queued(next, r[j])
    requires |next| <= i ==> !Queued(next, r[i])
    requires |next| <= i ==> FirstIndex(incoming[1..], r[i]) < FirstIndex(incoming[1..], r[j])
    ensures FirstIndex(incoming, r[i]) < FirstIndex(incoming, r[j])
  {
    HeadIsNotNew(queue, incoming, next, r[j]);
    if i < |next| {
      var f := incoming[0];
      assert |next| == |queue| + 1 && r[i] == next[i] == f;
      assert Admissible(f) && SameFile(f, f);
    } else {
      HeadIsNotNew(queue, incoming, next, r[i]);
    }
  }

  /** A file the recursive call adds is not the same file as an admissible
      head of the drop, so its position in the drop is one more than in the
      rest of the drop. */
  lemma HeadIsNotNew(queue: seq<FileRecord>, incoming: seq<FileRecord>,
                     next: seq<FileRecord>, g: FileRecord)
    requires |incoming| > 0 && next == AddOne(queue, incoming[0])
    requires !Queued(next, g)
    ensures FirstIndex(incoming, g) == 1 + FirstIndex(incoming[1..], g)
  {
    var f := incoming[0];
    if Admissible(f) {
      assert Queued(next, f) by {
        if !Queued(queue, f) {
          assert SameFile(next[|queue|], f);
        } else {
          assert next[..|queue|] == queue;
          QueuedExtends(queue, next, f);
        }
      }
      var m :| 0 <= m < |next| && SameFile(next[m], f);
      assert !SameFile(next[m], g);
    }
  }

  /** The induction step for the order facts of `AddFiles`: the old queue
      stays a prefix, and the head of the drop, if taken, precedes what the
      recursive call adds. */
  lemma OrderStep(queue: seq<FileRecord>, incoming: seq<FileRecord>,
                  next: seq<FileRecord>, r: seq<FileRecord>)
    requires |incoming| > 0 && next == AddOne(queue, incoming[0])
    requires |next| <= |r| && r[..|next|] == next
    requires IsSubsequence(r[|next|..], incoming[1..])
    ensures |queue| <= |r| && r[..|queue|] == queue
    ensures IsSubsequence(r[|queue|..], incoming)
  {
    assert next[..|queue|] == queue;
    assert r[..|queue|] == queue by {
      assert r[..|next|] == next;
    }
    if |next| == |queue| + 1 {
      assert r[|queue|..][0] == incoming[0];
      assert r[|queue|..][1..] == r[|next|..];
    } else {
      assert r[|queue|..] == r[|next|..];
    }
  }

  /** The induction step for the admission facts of `AddFiles`: new entries
      are admissible and not in the old queue, and every admissible file of
      the drop ends up queued. */
  lemma AdmissionStep(queue: seq<FileRecord>, incoming: seq<FileRecord>,
                      next: seq<FileRecord>, r: seq<FileRecord>)
    requires |incoming| > 0 && next == AddOne(queue, incoming[0])
    requires |next| <= |r| && r[..|next|] == next
    requires forall i :: |next| <= i < |r| ==> Admissible(r[i]) && !Queued(next, r[i])
    requires forall g :: g in incoming[1..] && Admissible(g) ==> Queued(r, g)
    ensures forall i :: |queue| <= i < |r| ==> Admissible(r[i]) && !Queued(queue, r[i])
    ensures forall g :: g in incoming && Admissible(g) ==> Queued(r, g)
  {
    var f := incoming[0];
    assert next[..|queue|] == queue;
    forall i | |queue| <= i < |r|
      ensures Admissible(r[i]) && !Queued(queue, r[i])
    {
      if i < |next| {
        assert r[i] == next[i] == f;
      } else if Queued(queue, r[i]) {
        QueuedExtends(queue, next, r[i]);
      }
    }
    forall g | g in incoming && Admissible(g) ensures Queued(r, g) {
      if g == f {
        if Queued(queue, g) {
          QueuedExtends(queue, next, g);
        } else {
          assert SameFile(next[|queue|], g);
        }
        QueuedExtends(next, r, g);
      } else {
        assert g in incoming[1..];
      }
    }
  }

  /** The induction step for where new entries come from: the head of the
      drop, if taken, is its own first copy, and every entry the recursive
      call adds sits one position further on in the whole drop. */
  lemma FirstCopyStep(queue: seq<FileRecord>, incoming: seq<FileRecord>,
                      next: seq<FileRecord>, r: seq<FileRecord>)
    requires |incoming| > 0 && next == AddOne(queue, incoming[0])
    requires |next| <= |r| && r[..|next|] == next
    requires forall i :: |next| <= i < |r| ==> !Queued(next, r[i])
    requires forall i :: |next| <= i < |r| ==>
               FirstIndex(incoming[1..], r[i]) < |incoming[1..]| &&
               r[i] == incoming[1..][FirstIndex(incoming[1..], r[i])]
    ensures forall i :: |queue| <= i < |r| ==>
              FirstIndex(incoming, r[i]) < |incoming| && r[i] == incoming[FirstIndex(incoming, r[i])]
  {
    forall i | |queue| <= i < |r|
      ensures FirstIndex(incoming, r[i]) < |incoming| && r[i] == incoming[FirstIndex(incoming, r[i])]
    {
      if i < |next| {
        assert |next| == |queue| + 1 && r[i] == next[i] == incoming[0];
        assert Admissible(incoming[0]) && SameFile(incoming[0], incoming[0]);
      } else {
        HeadIsNotNew(queue, incoming, next, r[i]);
        var k := FirstIndex(incoming[1..], r[i]);
        assert incoming[k + 1] == incoming[1..][k];
      }
    }
  }

  /** The induction step for distinctness of the new entries of `AddFiles`:
      the file taken from the head of the drop (if any) is followed only by
      entries the recursive call adds, none of which is the same file. */
  lemma NewEntriesFacts(queue: seq<FileRecord>, incoming: seq<FileRecord>,
                        next: seq<FileRecord>, r: seq<FileRecord>)
    requires |incoming| > 0 && next == AddOne(queue, incoming[0])
    requires |next| <= |r| && r[..|next|] == next
    requires forall i :: |next| <= i < |r| ==> !Queued(next, r[i])
    requires NoDuplicates(r[|next|..])
    ensures NoDuplicates(r[|queue|..])
  {
    forall a, b | 0 <= a < b < |r[|queue|..]|
      ensures !SameFile(r[|queue|..][a], r[|queue|..][b])
    {
      var x, y := r[|queue|..][a], r[|queue|..][b];
      if |queue| + a < |next| {
        assert x == next[|queue| + a];
        assert !Queued(next, y);
      } else {
        assert x == r[|next|..][|queue| + a - |next|];
        assert y == r[|next|..][|queue| + b - |next|];
      }
    }
  }

  /** Adding files that are all already queued (or would be refused) changes nothing. */
  lemma {:induction false} AddFilesAlreadyQueued(queue: seq<FileRecord>, incoming: seq<FileRecord>)
    requires forall f :: f in incoming && Admissible(f) ==> Queued(queue, f)
    ensures AddFiles(queue, incoming) == queue
    decreases |incoming|
  {
    if |incoming| > 0 {
      assert incoming[0] in incoming;
      assert AddOne(queue, incoming[0]) == queue;
      assert forall f :: f in incoming[1..] ==> f in incoming;
      AddFilesAlreadyQueued(queue, incoming[1..]);
    }
  }

  /** Dropping the same files a second time leaves the queue as it was. */
  lemma AddFilesIdempotent(queue: seq<FileRecord>, incoming: seq<FileRecord>)
    ensures AddFiles(AddFiles(queue, incoming), incoming) == AddFiles(queue, incoming)
  {
    AddFilesAlreadyQueued(AddFiles(queue, incoming), incoming);
  }

  /** `removeFile`: drops every entry carrying `name`, whatever its size, and
      keeps every other entry, in order. */
  function RemoveFile(queue: seq<FileRecord>, name: string): (r: seq<FileRecord>)
    ensures forall i :: 0 <= i < |r| ==> r[i].name != name
    ensures IsSubsequence(r, queue)
    ensures forall f: FileRecord :: f.name != name ==> multiset(r)[f] == multiset(queue)[f]
    decreases |queue|
  {
    if |queue| == 0 then []
    else
      var rest := RemoveFile(queue[1..], name);
      assert queue == [queue[0]] + queue[1..];
      assert multiset(queue) == multiset([queue[0]]) + multiset(queue[1..]);
      if queue[0].name == name then rest
      else
        assert ([queue[0]] + rest)[1..] == rest;
        assert multiset([queue[0]] + rest) == multiset([queue[0]]) + multiset(rest);
        [queue[0]] + rest
  }

  /** The part of the batch page this model tracks: the queue and the run
      button's `disabled` flag. */
  datatype Panel = Panel(queue: seq<FileRecord>, runDisabled: bool)

  /** Re-rendering the list sets `disabled` to "the queue is empty". */
  function Render(p: Panel, queue: seq<FileRecord>): Panel
  {
    p.(queue := queue, runDisabled := |queue| == 0)
  }

  function OnAdd(p: Panel, incoming: seq<FileRecord>): Panel
  {
    Render(p, AddFiles(p.queue, incoming))
  }

  function OnRemove(p: Panel, name: string): Panel
  {
    Render(p, RemoveFile(p.queue, name))
  }

  /** Clicking "run": an empty queue is ignored; otherwise the button is
      disabled and the whole queue is submitted. */
  function OnRun(p: Panel): (r: (Panel, Option<seq<FileRecord>>))
    ensures r.1.None? <==> |p.queue| == 0
    ensures r.1.None? ==> r.0 == p
    ensures r.1.Some? ==> r.1.value == p.queue && r.0.queue == p.queue && r.0.runDisabled
  {
    if |p.queue| == 0 then (p, None)
    else (p.(runDisabled := true), Some(p.queue))
  }

  /** The `finally` of a run re-enables the button unconditionally. */
  function OnRunFinished(p: Panel): Panel
  {
    p.(runDisabled := false)
  }

  /** After adding, the run button is enabled exactly when the queue was
      already non-empty or at least one dropped file was admissible. */
  lemma RunEnabledAfterAdd(p: Panel, incoming: seq<FileRecord>)
    ensures !OnAdd(p, incoming).runDisabled <==>
            (|p.queue| > 0 || exists f :: f in incoming && Admissible(f))
  {
    var r := AddFiles(p.queue, incoming);
    if |p.queue| == 0 && |r| > 0 {
      SubsequenceMembers(r[|p.queue|..], incoming);
      assert r[0] == r[|p.queue|..][0];
      assert r[0] in incoming && Admissible(r[0]);
    }
  }

  /** After removing `name`, the run button is enabled exactly when some
      entry carried another name. */
  lemma RunEnabledAfterRemove(p: Panel, name: string)
    ensures !OnRemove(p, name).runDisabled <==>
            (exists i :: 0 <= i < |p.queue| && p.queue[i].name != name)
  {
    var r := RemoveFile(p.queue, name);
    if exists i :: 0 <= i < |p.queue| && p.queue[i].name != name {
      var i :| 0 <= i < |p.queue| && p.queue[i].name != name;
      assert multiset(p.queue)[p.queue[i]] > 0;
      assert multiset(r)[p.queue[i]] > 0;
    }
    if |r| > 0 {
      SubsequenceMembers(r, p.queue);
      assert r[0] in p.queue;
    }
  }

  /** The run button can end up enabled on an empty queue: remove every file
      while a run is in flight, then let the run finish. Clicking it then
      submits nothing. */
  lemma EmptyQueueReenabledIsHarmless(p: Panel, name: string)
    requires |p.queue| > 0
    requires forall i :: 0 <= i < |p.queue| ==> p.queue[i].name == name
    ensures var after := OnRunFinished(OnRemove(OnRun(p).0, name));
            |after.queue| == 0 && !after.runDisabled && OnRun(after).1.None?
  {
    SubsequenceMembers(RemoveFile(p.queue, name), p.queue);
  }
}

=== FILE: batch_results.dfy ===
/** What the batch page does with the server's answer: split the per-file
    results into successes and failures, choose the message, and name the
    files it saves. */
module BatchResults {
  import opened Sequences
  import opened Text
  import UploadRoute

  /** One entry of the server's `items` list. */
  datatype ResultItem = ResultItem(filename: string, ok: bool, pdfData: string)

  /** The answer to the batch request: an HTTP error status, or a JSON body. */
  datatype BatchReply =
    | HttpError
    | Reply(success: bool, items: seq<ResultItem>, count: nat)

  /** The message the page shows once the answer is in. */
  datatype Report =
    | RequestFailed
    | NothingProcessed
    | SomeFailed(processed: nat, total: nat, failed: nat)
    | AllProcessed(processed: nat)

  /** The two `filter` calls over `items`: successes and failures, each in
      server order, together accounting for every item exactly once. */
  method SplitResults(items: seq<ResultItem>) returns (okItems: seq<ResultItem>, bad: seq<ResultItem>)
    ensures forall i :: 0 <= i < |okItems| ==> okItems[i].ok
    ensures forall i :: 0 <= i < |bad| ==> !bad[i].ok
    ensures IsSubsequence(okItems, items) && IsSubsequence(bad, items)
    ensures multiset(okItems) + multiset(bad) == multiset(items)
    ensures |okItems| + |bad| == |items|
  {
    okItems, bad := [], [];
    var k := 0;
    while k < |items|
      invariant 0 <= k <= |items|
      invariant forall i :: 0 <= i < |okItems| ==> okItems[i].ok
      invariant forall i :: 0 <= i < |bad| ==> !bad[i].ok
      invariant IsSubsequence(okItems, items[..k]) && IsSubsequence(bad, items[..k])
      invariant multiset(okItems) + multiset(bad) == multiset(items[..k])
      invariant |okItems| + |bad| == k
    {
      var it := items[k];
      assert items[..k + 1] == items[..k] + [it];
      SubsequenceAppend(okItems, items[..k], it);
      SubsequenceAppend(bad, items[..k], it);
      if it.ok {
        okItems := okItems + [it];
      } else {
        bad := bad + [it];
      }
      k := k + 1;
    }
    assert items[..k] == items;
  }

  /** `processFilesReliable` after the request: a failed request or
      `success: false` is an error; otherwise the successful items are
      downloaded, in order, and the message depends on how many failed. */
  method FinishBatch(reply: BatchReply) returns (report: Report, downloads: seq<ResultItem>)
    ensures report == RequestFailed <==> reply.HttpError? || !reply.success
    ensures report == RequestFailed ==> downloads == []
    ensures reply.Reply? && reply.success ==>
              && IsSubsequence(downloads, reply.items)
              && (forall i :: 0 <= i < |downloads| ==> downloads[i].ok)
              && (forall it :: multiset(downloads)[it] == (if it.ok then multiset(reply.items)[it] else 0))
    ensures report == NothingProcessed <==>
              reply.Reply? && reply.success && forall it :: it in reply.items ==> !it.ok
    ensures report.SomeFailed? ==>
              && report.processed == |downloads| > 0
              && report.total == reply.count
              && report.processed + report.failed == |reply.items|
              && report.failed > 0
    ensures report.AllProcessed? ==>
              report.processed == |downloads| == |reply.items| > 0
  {
    if reply.HttpError? || !reply.success {
      return RequestFailed, [];
    }
    var okItems, bad := SplitResults(reply.items);
    SubsequenceMembers(okItems, reply.items);
    SubsequenceMembers(bad, reply.items);
    forall it: ResultItem
      ensures multiset(okItems)[it] == (if it.ok then multiset(reply.items)[it] else 0)
    {
      if it.ok {
        assert it !in bad;
        assert multiset(bad)[it] == 0;
      } else {
        assert it !in okItems;
      }
    }
    if |okItems| == 0 {
      assert multiset(reply.items) == multiset(bad);
      forall it | it in reply.items ensures !it.ok {
        assert it in multiset(bad);
      }
      return NothingProcessed, [];
    }
    downloads := okItems;
    if |bad| > 0 {
      report := SomeFailed(|okItems|, reply.count, |bad|);
    } else {
      report := AllProcessed(|okItems|);
    }
  }

  /** The suffix put in place of ".pdf" in a saved file's name. */
  const SignedSuffix: string := UploadRoute.SignedTag + ".pdf"

  /** `downloadFile`'s name: the first ".pdf", matched case-sensitively and
      wherever it stands, becomes "_с_подписью.pdf"; a name without ".pdf"
      is kept as it is. */
  function DownloadName(filename: string): (r: string)
    ensures !Contains(filename, ".pdf") ==> r == filename
    ensures forall i: nat :: FirstOccurrence(filename, ".pdf", i) ==>
              r == filename[..i] + SignedSuffix + filename[i + 4..]
    ensures Contains(filename, ".pdf") ==> |r| == |filename| + |SignedSuffix| - 4
  {
    ReplaceFirst(filename, ".pdf", SignedSuffix)
  }

  /** A name that ends in ".pdf" and has no earlier ".pdf" gets the suffix in
      place of its extension. */
  lemma DownloadNameOfPdf(stem: string)
    requires !Contains(stem + ".pd", ".pdf")
    ensures DownloadName(stem + ".pdf") == stem + SignedSuffix
  {
    var s := stem + ".pdf";
    var i := |stem|;
    assert OccursAt(s, ".pdf", i);
    forall j: nat | j < i ensures !OccursAt(s, ".pdf", j) {
      assert (stem + ".pd")[j..j + 4] == s[j..j + 4];
      assert !OccursAt(stem + ".pd", ".pdf", j);
    }
    assert FirstOccurrence(s, ".pdf", i);
    assert s[..i] == stem;
    assert s[i + 4..] == [];
  }

  /** Only the first ".pdf" is rewritten, and an upper-case ".PDF" is not
      rewritten at all. */
  lemma DownloadNameExamples()
    ensures DownloadName("a.pdf.pdf") == "a" + SignedSuffix + ".pdf"
    ensures DownloadName("A.PDF") == "A.PDF"
  {
    var s := "a.pdf.pdf";
    assert OccursAt(s, ".pdf", 1);
    assert s[0..4][0] == 'a';
    assert FirstOccurrence(s, ".pdf", 1);
    assert s[..1] == "a" && s[1 + 4..] == ".pdf";
    var t := "A.PDF";
    forall j: nat ensures !OccursAt(t, ".pdf", j) {
      if j + 4 <= |t| {
        assert t[j..j + 4][1] != 'p' || t[j..j + 4][0] != '.';
      }
    }
  }
}

=== FILE: client_server.dfy ===
/** How the single-file page and the `/upload` route fit together. */
module ClientServer {
  import UploadRoute
  import SingleUpload

  /** The signed file's name always carries the tag, so it is never empty. */
  lemma OutputNameNeverEmpty(sanitized: string)
    ensures |UploadRoute.OutputName(sanitized)| >= |UploadRoute.SignedTag|
    ensures UploadRoute.OutputName(sanitized) != ""
  {
    var (stem, ext) := UploadRoute.SplitExt(sanitized);
    assert UploadRoute.OutputName(sanitized) == stem + UploadRoute.SignedTag + ext;
  }

  /** After a successful upload the page's download button fetches
      `/download/<signed name>` under that name: the empty-name guard never
      fires for a name the route produces. */
  lemma DownloadFollowsSignedUpload<P>(s: SingleUpload.Session, resp: UploadRoute.Response<P>, sanitized: string)
    requires resp.Signed? && resp.filename == UploadRoute.OutputName(sanitized)
    ensures var after := SingleUpload.OnUploadReply(s, SingleUpload.Answer(true, resp.filename)).0;
            SingleUpload.DownloadFile(after) == SingleUpload.StartDownload("/download/" + resp.filename, resp.filename)
  {
    OutputNameNeverEmpty(sanitized);
  }
}

=== FILE: files.dfy ===
/** A file as the browser's File API presents it, and the two facts about
    files every entry point agrees on: what a ".pdf" name is, and the
    16 MiB upload limit. */
module Files {
  import opened Text

  /** `name`, `type` and `size` of a browser File. */
  datatype FileRecord = FileRecord(name: string, mimeType: string, size: nat)

  const PdfMimeType: string := "application/pdf"

  /** 16 MiB: the client-side size limit and the server's request-body limit. */
  const MaxUploadBytes: nat := 16 * 1024 * 1024

  /** `name.toLowerCase().endsWith('.pdf')` (and Python's `name.lower().endswith('.pdf')`). */
  predicate HasPdfExtension(name: string)
  {
    EndsWith(Lower(name), ".pdf")
  }

  /** The extension test ignores the case of the extension and looks at
      nothing but the last four characters. */
  lemma PdfExtensionIgnoresCase(stem: string)
    ensures HasPdfExtension(stem + ".pdf")
    ensures HasPdfExtension(stem + ".PDF")
    ensures HasPdfExtension(stem + ".Pdf")
    ensures !HasPdfExtension(stem + ".pdf.txt")
  {
    var s := stem + ".PDF";
    assert Lower(s)[|s| - 4..] == ".pdf";
    var t := stem + ".Pdf";
    assert Lower(t)[|t| - 4..] == ".pdf";
    var u := stem + ".pdf";
    assert Lower(u)[|u| - 4..] == ".pdf";
    var v := stem + ".pdf.txt";
    assert Lower(v)[|v| - 1] == 't';
  }
}

=== FILE: page_pipeline.dfy ===
/** The server's signing step: one overlay page the size of the first
    page's media box, carrying the 200 x 100 signature block in its
    lower-right corner, merged onto the first page only. Pages are opaque;
    reading the media box and merging two pages are left to the PDF
    library and enter as parameters. */
module PagePipeline {
  import opened Results

  /** A media box in points: its lower-left corner and its extent (PyPDF2's
      `mediabox.width` and `mediabox.height` are the extent). */
  datatype Box = Box(left: real, bottom: real, width: real, height: real)

  /** A rectangle in user-space points. */
  datatype Rect = Rect(x: real, y: real, width: real, height: real)

  /** The generated one-page overlay: its media box and where the image sits. */
  datatype Overlay = Overlay(size: Box, stamp: Rect)

  const StampWidth: real := 200.0
  const StampHeight: real := 100.0
  const RightMargin: real := 50.0
  const BottomMargin: real := 50.0

  /** Where the signature image is drawn, in user space, for a page of the
      given size. Only the width enters; the box's corner is ignored. */
  function StampRect(page: Box): (r: Rect)
    ensures r.width == StampWidth && r.height == StampHeight
    ensures r.y == BottomMargin
    ensures r.x + r.width == page.width - RightMargin
  {
    Rect(page.width - StampWidth - RightMargin, BottomMargin, StampWidth, StampHeight)
  }

  /** `r` lies within the box, both in user space. */
  predicate Inside(r: Rect, page: Box)
  {
    && page.left <= r.x && r.x + r.width <= page.left + page.width
    && page.bottom <= r.y && r.y + r.height <= page.bottom + page.height
  }

  /** Nothing clamps the stamp and nothing reads the box's corner: on a page
      whose media box starts at (0, 0) it lies on the page exactly when the
      page is at least 250 pt wide and 150 pt tall; in general, when the
      box's corner and extent leave room around the fixed user-space spot. */
  lemma StampInsideIff(page: Box)
    ensures page.left == 0.0 && page.bottom == 0.0 ==>
              (Inside(StampRect(page), page) <==> page.width >= 250.0 && page.height >= 150.0)
    ensures Inside(StampRect(page), page) <==>
              && page.left <= page.width - 250.0 && -50.0 <= page.left
              && page.bottom <= 50.0 && 150.0 <= page.bottom + page.height
  {
  }

  /** Raising the media box moves the visible page but not the stamp: on
      `[0 100 612 892]` the stamp's lower half is cut off, and on any box
      whose bottom edge is at 150 pt or higher the whole stamp lies below the
      visible page. */
  lemma StampMissesRaisedBox(page: Box)
    ensures var raised := Box(0.0, 100.0, 612.0, 792.0);
            && !Inside(StampRect(raised), raised)
            && StampRect(raised).y < raised.bottom
            && StampRect(raised).y + StampRect(raised).height / 2.0 == raised.bottom
    ensures page.bottom >= 150.0 ==> StampRect(page).y + StampRect(page).height <= page.bottom
  {
  }

  /** The overlay is a page of the first page's width and height, its media
      box anchored at (0, 0) (reportlab's `pagesize`), with the image 50 pt
      from its right and bottom edges; the image lies on it exactly when the
      first page is at least 250 x 150 pt. */
  function BuildOverlay(first: Box): (o: Overlay)
    ensures o.size.width == first.width && o.size.height == first.height
    ensures o.size.left == 0.0 && o.size.bottom == 0.0
    ensures o.stamp.x + o.stamp.width == o.size.width - RightMargin
    ensures o.stamp.y == BottomMargin
    ensures o.stamp.width == StampWidth && o.stamp.height == StampHeight
    ensures Inside(o.stamp, o.size) <==> first.width >= 250.0 && first.height >= 150.0
  {
    var size := Box(0.0, 0.0, first.width, first.height);
    StampInsideIff(size);
    Overlay(size, StampRect(first))
  }

  /** The output keeps every page, in order, and differs from the input only
      in its first page, which is `merged`. */
  ghost predicate StampedFirstPage<P>(input: seq<P>, output: seq<P>, merged: P)
  {
    && |output| == |input|
    && (|input| > 0 ==> output[0] == merged)
    && (forall i :: 1 <= i < |input| ==> output[i] == input[i])
  }

  /** The copy loop: page 0 is merged with the overlay, every other page is
      added unmodified. */
  method AssemblePages<P>(pages: seq<P>, overlay: Overlay, merge: (P, Overlay) -> P)
    returns (out: seq<P>)
    ensures |pages| > 0 ==> StampedFirstPage(pages, out, merge(pages[0], overlay))
    ensures |pages| == 0 ==> out == []
  {
    out := [];
    var n := 0;
    while n < |pages|
      invariant 0 <= n <= |pages| && |out| == n
      invariant n > 0 ==> out[0] == merge(pages[0], overlay)
      invariant forall i :: 1 <= i < n ==> out[i] == pages[i]
    {
      var page := pages[n];
      if n == 0 {
        page := merge(page, overlay);
      }
      out := out + [page];
      n := n + 1;
    }
  }

  datatype SignError = NoFirstPage

  /** `add_signature_to_pdf` on an already-parsed document: a document with
      no pages fails when its first page is read; otherwise the overlay built
      from page 0's media box is merged onto page 0. */
  method AddSignature<P>(pages: seq<P>, mediaBox: P -> Box, merge: (P, Overlay) -> P)
    returns (r: Result<seq<P>, SignError>)
    ensures r.Failure? <==> |pages| == 0
    ensures r.Success? ==>
              StampedFirstPage(pages, r.value, merge(pages[0], BuildOverlay(mediaBox(pages[0]))))
  {
    if |pages| == 0 {
      return Failure(NoFirstPage);
    }
    var overlay := BuildOverlay(mediaBox(pages[0]));
    var out := AssemblePages(pages, overlay, merge);
    return Success(out);
  }
}

=== FILE: progress.dfy ===
/** The single-file page's simulated progress bar: every tick adds a random
    increment, the bar never passes 90%, and the caption follows the bar. */
module Progress {

  const Cap: real := 90.0

  /** Sum of the first `k` increments. */
  function PrefixSum(incs: seq<real>, k: nat): real
    requires k <= |incs|
  {
    if k == 0 then 0.0 else PrefixSum(incs, k - 1) + incs[k - 1]
  }

  /** What the bar shows for an uncapped running total. */
  function Capped(total: real): real
  {
    if total > Cap then Cap else total
  }

  /** `simulateProgress` driven by the increments the random source yields:
      the widths it sets, one per tick, until the tick that overshoots 90
      clamps the bar to 90 and clears the interval. */
  method SimulateProgress(incs: seq<real>) returns (widths: seq<real>)
    requires forall i :: 0 <= i < |incs| ==> 0.0 <= incs[i]
    ensures |widths| <= |incs|
    ensures forall i :: 0 <= i < |widths| ==> 0.0 <= widths[i] <= Cap
    ensures forall i, j :: 0 <= i <= j < |widths| ==> widths[i] <= widths[j]
    ensures forall i :: 0 <= i < |widths| ==> widths[i] == Capped(PrefixSum(incs, i + 1))
    ensures forall i :: 1 <= i < |widths| ==> PrefixSum(incs, i) <= Cap
    ensures |widths| < |incs| ==> |widths| > 0 && PrefixSum(incs, |widths|) > Cap
  {
    var progress := 0.0;
    var running := true;
    widths := [];
    var k := 0;
    while k < |incs| && running
      invariant 0 <= k <= |incs| && |widths| == k
      invariant 0.0 <= progress <= Cap
      invariant running ==> progress == PrefixSum(incs, k)
      invariant !running ==> k > 0 && progress == Cap && PrefixSum(incs, k) > Cap
      invariant forall i :: 0 <= i < k ==> widths[i] <= progress
      invariant forall i, j :: 0 <= i <= j < k ==> widths[i] <= widths[j]
      invariant forall i :: 0 <= i < k ==> widths[i] == Capped(PrefixSum(incs, i + 1))
      invariant forall i :: 1 <= i < k ==> PrefixSum(incs, i) <= Cap
      invariant k > 0 && running ==> PrefixSum(incs, k) <= Cap
      invariant forall i :: 0 <= i < k ==> 0.0 <= widths[i]
    {
      progress := progress + incs[k];
      if progress > Cap {
        progress := Cap;
        running := false;
      }
      widths := widths + [progress];
      k := k + 1;
    }
  }

  /** The caption under the bar. */
  datatype Stage = Uploading | Processing | Signing

  function StageOf(progress: real): Stage
  {
    if progress < 30.0 then Uploading
    else if progress < 60.0 then Processing
    else Signing
  }

  function Rank(s: Stage): nat
  {
    match s
    case Uploading => 0
    case Processing => 1
    case Signing => 2
  }

  /** The caption never goes back while the bar moves forward, and a bar
      stopped at the cap reads "adding the signature". */
  lemma StageFollowsProgress(p: real, q: real)
    requires p <= q
    ensures Rank(StageOf(p)) <= Rank(StageOf(q))
    ensures StageOf(Cap) == Signing
    ensures StageOf(p) == Uploading <==> p < 30.0
    ensures StageOf(p) == Signing <==> 60.0 <= p
  {
  }
}

=== FILE: results.dfy ===
/** Failure-carrying wrappers shared by every module of the model. */
module Results {

  /** A value that may be absent (JavaScript `null`, a missing form field). */
  datatype Option<+T> = None | Some(value: T)

  /** Either a value or the reason it could not be produced. */
  datatype Result<+T, +E> = Success(value: T) | Failure(error: E)
}

=== FILE: sequences.dfy ===
/** Order-preserving sub-sequences: the vocabulary for saying that a list
    operation keeps the relative order of the entries it keeps. */
module Sequences {

  /** True iff `a` is obtained from `b` by deleting some entries. */
  ghost predicate IsSubsequence<T>(a: seq<T>, b: seq<T>)
    decreases |b|
  {
    if |b| == 0 then |a| == 0
    else (|a| > 0 && a[0] == b[0] && IsSubsequence(a[1..], b[1..])) || IsSubsequence(a, b[1..])
  }

  /** Every entry of a sub-sequence comes from the sequence it was taken from. */
  lemma {:induction false} SubsequenceMembers<T>(a: seq<T>, b: seq<T>)
    requires IsSubsequence(a, b)
    ensures forall i :: 0 <= i < |a| ==> a[i] in b
    decreases |b|
  {
    if |b| > 0 {
      if |a| > 0 && a[0] == b[0] && IsSubsequence(a[1..], b[1..]) {
        SubsequenceMembers(a[1..], b[1..]);
        forall i | 0 < i < |a| ensures a[i] in b {
          assert a[i] == a[1..][i - 1];
        }
      } else {
        SubsequenceMembers(a, b[1..]);
      }
    }
  }

  /** Appending one entry to the sequence keeps a sub-sequence a sub-sequence,
      whether or not the sub-sequence takes that entry as well. */
  lemma {:induction false} SubsequenceAppend<T>(a: seq<T>, b: seq<T>, x: T)
    requires IsSubsequence(a, b)
    ensures IsSubsequence(a + [x], b + [x])
    ensures IsSubsequence(a, b + [x])
    decreases |b|
  {
    if |b| == 0 {
      assert a == [];
      assert (a + [x])[1..] == [];
      assert (b + [x])[1..] == [];
    } else {
      assert (b + [x])[1..] == b[1..] + [x];
      if |a| > 0 && a[0] == b[0] && IsSubsequence(a[1..], b[1..]) {
        SubsequenceAppend(a[1..], b[1..], x);
        assert (a + [x])[1..] == a[1..] + [x];
      } else {
        SubsequenceAppend(a, b[1..], x);
      }
    }
  }
}

=== FILE: simple_upload.dfy ===
/** The stripped-down upload script: a looser PDF test, the same size limit,
    and an immediate download of the signed file. */
module SimpleUpload {
  import opened Text
  import opened Files
  import SingleUpload

  /** Accepted when the MIME type mentions "pdf" anywhere, or the name has a
      ".pdf" extension in any case. */
  predicate LooksLikePdf(f: FileRecord)
  {
    Contains(f.mimeType, "pdf") || HasPdfExtension(f.name)
  }

  datatype AlertKind = NotPdf | TooLarge | ServerError | ConnectionError

  datatype Step =
    | Alert(kind: AlertKind)
    | PostUpload(file: FileRecord)
    | Download(href: string, saveAs: string)

  /** `uploadFile` up to the request: type first, then size; only a file
      passing both is posted. */
  function UploadFile(f: FileRecord): (r: Step)
    ensures r.PostUpload? <==> LooksLikePdf(f) && f.size <= MaxUploadBytes
    ensures r.PostUpload? ==> r.file == f
    ensures !LooksLikePdf(f) ==> r == Alert(NotPdf)
    ensures LooksLikePdf(f) && f.size > MaxUploadBytes ==> r == Alert(TooLarge)
  {
    if !LooksLikePdf(f) then Alert(NotPdf)
    else if f.size > MaxUploadBytes then Alert(TooLarge)
    else PostUpload(f)
  }

  /** What follows the request: a success downloads `/download/<filename>`
      under that name; anything else is an alert. */
  function OnReply(reply: SingleUpload.UploadReply): (r: Step)
    ensures r.Download? <==> reply.Answer? && reply.success
    ensures r.Download? ==> r.href == "/download/" + reply.filename && r.saveAs == reply.filename
    ensures reply.NetworkError? ==> r == Alert(ConnectionError)
    ensures reply.Answer? && !reply.success ==> r == Alert(ServerError)
    ensures !r.Download? ==> r.Alert?
  {
    match reply
    case NetworkError => Alert(ConnectionError)
    case Answer(ok, name) =>
      if ok then Download("/download/" + name, name) else Alert(ServerError)
  }

  /** Every file the full page accepts as a PDF is accepted here too. */
  lemma AcceptsEveryValidPdf(f: FileRecord)
    ensures SingleUpload.IsValidPdf(f) ==> LooksLikePdf(f)
  {
    if f.mimeType == PdfMimeType {
      assert OccursAt(f.mimeType, "pdf", 12);
    } else if f.mimeType == "pdf" {
      assert OccursAt(f.mimeType, "pdf", 0);
    }
  }

  /** ... but not conversely: "application/x-pdf" passes only here. */
  lemma AcceptsMoreThanFullPage()
    ensures var f := FileRecord("scan", "application/x-pdf", 1);
            LooksLikePdf(f) && !SingleUpload.IsValidPdf(f)
  {
    var f := FileRecord("scan", "application/x-pdf", 1);
    assert OccursAt(f.mimeType, "pdf", 14);
    assert Lower(f.name)[|f.name| - 1] == 'n';
  }

  /** Both pages apply the same size limit after the type test: a PDF of
      exactly 16 MiB is sent, one byte more is refused. */
  lemma SizeLimitBoundary(name: string)
    requires HasPdfExtension(name)
    ensures UploadFile(FileRecord(name, "", MaxUploadBytes)).PostUpload?
    ensures UploadFile(FileRecord(name, "", MaxUploadBytes + 1)) == Alert(TooLarge)
    ensures SingleUpload.HandleFile(SingleUpload.Session(Results.None, Results.None),
                                    FileRecord(name, "", MaxUploadBytes)).1.StartUpload?
  {
  }
}

=== FILE: single_upload.dfy ===
/** The single-file page: validating the chosen file, remembering it,
    recording the server's answer, the download button and the reset. */
module SingleUpload {
  import opened Results
  import opened Files

  /** The page's PDF test: the MIME type is "application/pdf" or "pdf", or
      the name has a ".pdf" extension in any case. */
  predicate IsValidPdf(f: FileRecord)
  {
    f.mimeType == PdfMimeType || f.mimeType == "pdf" || HasPdfExtension(f.name)
  }

  datatype Problem = NotPdf | TooLarge | NothingToDownload | UploadRejected | ConnectionFailed

  /** What a handler makes the page do. */
  datatype Effect =
    | Idle
    | ShowError(problem: Problem)
    | StartUpload(file: FileRecord)
    | ShowSuccess
    | StartDownload(href: string, saveAs: string)

  /** The page's two globals. */
  datatype Session = Session(currentFile: Option<FileRecord>, downloadFilename: Option<string>)

  /** `handleFile`: the type is checked first, then the size; only a file
      passing both becomes the current file and is uploaded. */
  function HandleFile(s: Session, f: FileRecord): (r: (Session, Effect))
    ensures r.1.StartUpload? <==> IsValidPdf(f) && f.size <= MaxUploadBytes
    ensures !IsValidPdf(f) ==> r.1 == ShowError(NotPdf)
    ensures IsValidPdf(f) && f.size > MaxUploadBytes ==> r.1 == ShowError(TooLarge)
    ensures r.1.StartUpload? ==> r.1.file == f && r.0 == s.(currentFile := Some(f))
    ensures !r.1.StartUpload? ==> r.0 == s
  {
    if !IsValidPdf(f) then (s, ShowError(NotPdf))
    else if f.size > MaxUploadBytes then (s, ShowError(TooLarge))
    else (s.(currentFile := Some(f)), StartUpload(f))
  }

  /** `handleDrop` / `handleFileSelect`: only the first file is looked at. */
  function HandleSelection(s: Session, files: seq<FileRecord>): (r: (Session, Effect))
    ensures |files| == 0 ==> r == (s, Idle)
    ensures r.1.StartUpload? <==> |files| > 0 && IsValidPdf(files[0]) && files[0].size <= MaxUploadBytes
    ensures r.1.StartUpload? ==> r.1.file == files[0]
    ensures !r.1.StartUpload? ==> r.0 == s
    ensures |files| > 0 && !IsValidPdf(files[0]) ==> r.1 == ShowError(NotPdf)
    ensures |files| > 0 && IsValidPdf(files[0]) && files[0].size > MaxUploadBytes ==> r.1 == ShowError(TooLarge)
    ensures r.1.StartUpload? ==> r.0 == s.(currentFile := Some(files[0]))
  {
    if |files| == 0 then (s, Idle) else HandleFile(s, files[0])
  }

  /** Files after the first one in a selection have no influence. */
  lemma OnlyFirstFileMatters(s: Session, files: seq<FileRecord>, more: seq<FileRecord>)
    requires |files| > 0
    ensures HandleSelection(s, files[..1] + more) == HandleSelection(s, files)
  {
    assert (files[..1] + more)[0] == files[0];
  }

  /** The `/upload` answer as the pages' `uploadFile` functions see it. */
  datatype UploadReply = Answer(success: bool, filename: string) | NetworkError

  /** `uploadFile`'s handling of the answer: a success records the name to
      download; anything else shows an error and records nothing. */
  function OnUploadReply(s: Session, reply: UploadReply): (r: (Session, Effect))
    ensures r.1 == ShowSuccess <==> reply.Answer? && reply.success
    ensures r.1 == ShowSuccess ==> r.0.downloadFilename == Some(reply.filename)
    ensures r.1 != ShowSuccess ==> r.0 == s && r.1.ShowError?
    ensures reply.NetworkError? ==> r.1 == ShowError(ConnectionFailed)
    ensures reply.Answer? && !reply.success ==> r.1 == ShowError(UploadRejected)
    ensures r.0.currentFile == s.currentFile
  {
    match reply
    case NetworkError => (s, ShowError(ConnectionFailed))
    case Answer(ok, name) =>
      if ok then (s.(downloadFilename := Some(name)), ShowSuccess)
      else (s, ShowError(UploadRejected))
  }

  /** `downloadFile`: with no name (JavaScript `null`, or the falsy empty
      string) it only shows an error; otherwise it fetches `/download/<name>`. */
  function DownloadFile(s: Session): (r: Effect)
    ensures r.StartDownload? <==> s.downloadFilename.Some? && s.downloadFilename.value != ""
    ensures r.StartDownload? ==>
              r.href == "/download/" + s.downloadFilename.value && r.saveAs == s.downloadFilename.value
    ensures !r.StartDownload? ==> r == ShowError(NothingToDownload)
  {
    match s.downloadFilename
    case Some(name) =>
      if name == "" then ShowError(NothingToDownload)
      else StartDownload("/download/" + name, name)
    case None => ShowError(NothingToDownload)
  }

  /** `resetForm`. */
  function ResetForm(s: Session): Session
  {
    Session(None, None)
  }

  /** After a reset nothing is current and the download button only
      complains, whatever happened before. */
  lemma ResetForgetsEverything(s: Session)
    ensures ResetForm(s).currentFile == None
    ensures DownloadFile(ResetForm(s)) == ShowError(NothingToDownload)
  {
  }

  /** A successful upload answered with a non-empty name makes the download
      button fetch exactly that file. */
  lemma DownloadAfterSuccess(s: Session, name: string)
    requires name != ""
    ensures DownloadFile(OnUploadReply(s, Answer(true, name)).0) == StartDownload("/download/" + name, name)
  {
  }

  /** A rejected file leaves both globals as they were and is never sent. */
  lemma RejectedFileNotRemembered(s: Session, f: FileRecord)
    requires !IsValidPdf(f) || f.size > MaxUploadBytes
    ensures HandleFile(s, f).0 == s
    ensures !HandleFile(s, f).1.StartUpload?
  {
  }
}

=== FILE: text.dfy ===
/** The few string operations the browser scripts and the server use:
    lower-casing, suffix tests, substring search and first-occurrence
    replacement. Strings are sequences of characters. */
module Text {
  import opened Results

  /** Lower-cases one character. Only A-Z are mapped: no other character
      lower-cases to one of the characters of ".pdf", so every suffix test
      against ".pdf" agrees with the full Unicode mapping. */
  function LowerChar(c: char): char
  {
    if 'A' <= c <= 'Z' then (c as int + 32) as char else c
  }

  function Lower(s: string): string
  {
    seq(|s|, i requires 0 <= i < |s| => LowerChar(s[i]))
  }

  predicate EndsWith(s: string, suffix: string)
  {
    |suffix| <= |s| && s[|s| - |suffix|..] == suffix
  }

  /** `pat` occurs in `s` starting at index `i`. */
  predicate OccursAt(s: string, pat: string, i: nat)
  {
    i + |pat| <= |s| && s[i..i + |pat|] == pat
  }

  /** JavaScript `s.includes(pat)`. */
  predicate Contains(s: string, pat: string)
  {
    exists i: nat | i <= |s| :: OccursAt(s, pat, i)
  }

  /** `i` is the leftmost occurrence of `pat` in `s`. */
  ghost predicate FirstOccurrence(s: string, pat: string, i: nat)
  {
    OccursAt(s, pat, i) && forall j: nat :: j < i ==> !OccursAt(s, pat, j)
  }

  /** Leftmost occurrence of `pat` at or after `from`. */
  function IndexOfFrom(s: string, pat: string, from: nat): (r: Option<nat>)
    ensures r.Some? ==> from <= r.value && OccursAt(s, pat, r.value)
    ensures r.Some? ==> forall j: nat :: from <= j < r.value ==> !OccursAt(s, pat, j)
    ensures r.None? ==> forall j: nat :: from <= j ==> !OccursAt(s, pat, j)
    decreases |s| - from
  {
    if from + |pat| > |s| then None
    else if OccursAt(s, pat, from) then Some(from)
    else IndexOfFrom(s, pat, from + 1)
  }

  /** JavaScript `s.replace(pat, rep)` with a string pattern: only the
      leftmost occurrence is replaced, and the comparison is case-sensitive. */
  function ReplaceFirst(s: string, pat: string, rep: string): (r: string)
    ensures !Contains(s, pat) ==> r == s
    ensures forall i: nat :: FirstOccurrence(s, pat, i) ==> r == s[..i] + rep + s[i + |pat|..]
  {
    match IndexOfFrom(s, pat, 0)
    case None => s
    case Some(i) =>
      assert FirstOccurrence(s, pat, i);
      s[..i] + rep + s[i + |pat|..]
  }
}

=== FILE: upload_route.dfy ===
/** The server's `/upload` route: the validation chain, the name of the
    signed file, and the hand-off to the signing step. Sanitising the name
    (werkzeug's `secure_filename`), parsing the PDF, reading a media box and
    merging pages are library calls and enter as parameters; saving and
    deleting files is left out. */
module UploadRoute {
  import opened Results
  import opened Files
  import opened PagePipeline

  /** Index of the last `c` in `s`, or -1. */
  function LastIndexOf(s: string, c: char): (r: int)
    ensures -1 <= r < |s|
    ensures r >= 0 ==> s[r] == c
    ensures forall j :: r < j < |s| ==> s[j] != c
    decreases |s|
  {
    if |s| == 0 then -1
    else if s[|s| - 1] == c then |s| - 1
    else LastIndexOf(s[..|s| - 1], c)
  }

  /** `d` is where Python's `os.path.splitext` splits `p`: the last dot, with
      neither a dot nor a '/' after it, and some character other than a dot
      between it and the preceding '/' (leading dots of a base name do not
      start an extension). */
  ghost predicate ExtensionAt(p: string, d: int)
  {
    && 0 <= d < |p|
    && p[d] == '.'
    && (forall j :: d < j < |p| ==> p[j] != '.' && p[j] != '/')
    && exists k :: 0 <= k < d && p[k] != '.' && forall m :: k <= m < d ==> p[m] != '/'
  }

  /** `os.path.splitext` (POSIX): `(stem, ext)` with `stem + ext == p`; `ext`
      is empty exactly when `p` has no extension. */
  function SplitExt(p: string): (r: (string, string))
    ensures r.0 + r.1 == p
    ensures r.1 != "" <==> exists d :: ExtensionAt(p, d)
    ensures r.1 != "" ==> ExtensionAt(p, |r.0|)
  {
    var sep := LastIndexOf(p, '/');
    var dot := LastIndexOf(p, '.');
    if dot > sep && exists k | sep < k < dot :: p[k] != '.' then
      assert ExtensionAt(p, dot);
      (p[..dot], p[dot..])
    else
      assert forall d :: !ExtensionAt(p, d) by {
        forall d | 0 <= d < |p| && p[d] == '.' && (forall j :: d < j < |p| ==> p[j] != '.' && p[j] != '/')
          ensures !exists k :: 0 <= k < d && p[k] != '.' && forall m :: k <= m < d ==> p[m] != '/'
        {
          assert dot == d;
          forall k | 0 <= k < d && p[k] != '.' ensures exists m :: k <= m < d && p[m] == '/' {
            assert sep >= k;
            assert sep < d;
            assert p[sep] == '/';
          }
        }
      }
      (p, "")
  }

  /** The text put between stem and extension of the signed file's name. */
  const SignedTag: string := "_с_подписью"

  /** `f"{name}_с_подписью{ext}"` over `os.path.splitext` of the sanitised name. */
  function OutputName(sanitized: string): string
  {
    var (stem, ext) := SplitExt(sanitized);
    stem + SignedTag + ext
  }

  /** No character of `s` is a dot or a '/'. */
  predicate Plain(s: string)
  {
    forall i :: 0 <= i < |s| ==> s[i] != '.' && s[i] != '/'
  }

  /** Inserting plain text in front of an extension keeps it an extension. */
  lemma ExtensionSurvivesInsert(stem: string, tag: string, ext: string)
    requires Plain(tag)
    requires ExtensionAt(stem + ext, |stem|)
    ensures ExtensionAt(stem + tag + ext, |stem| + |tag|)
  {
    var p := stem + ext;
    var out := stem + tag + ext;
    var d := |stem| + |tag|;
    var k :| 0 <= k < |stem| && p[k] != '.' && forall m :: k <= m < |stem| ==> p[m] != '/';
    assert out[k] == p[k];
    forall m | k <= m < d ensures out[m] != '/' {
      if m < |stem| {
        assert out[m] == p[m];
      } else {
        assert out[m] == tag[m - |stem|];
      }
    }
    forall j | d < j < |out| ensures out[j] != '.' && out[j] != '/' {
      assert out[j] == p[j - |tag|];
    }
    assert out[d] == p[|stem|];
  }

  /** Appending plain text to a name without extension gives none either. */
  lemma NoExtensionSurvivesAppend(p: string, tag: string)
    requires Plain(tag)
    requires forall d :: !ExtensionAt(p, d)
    ensures forall d :: !ExtensionAt(p + tag, d)
  {
    var out := p + tag;
    forall d | 0 <= d < |out| && out[d] == '.' && (forall j :: d < j < |out| ==> out[j] != '.' && out[j] != '/')
      ensures forall k :: 0 <= k < d && out[k] != '.' ==> exists m :: k <= m < d && out[m] == '/'
    {
      assert forall i :: |p| <= i < |out| ==> out[i] == tag[i - |p|];
      assert d < |p|;
      assert p[d] == '.';
      forall j | d < j < |p| ensures p[j] != '.' && p[j] != '/' {
        assert p[j] == out[j];
      }
      assert !ExtensionAt(p, d);
      forall k | 0 <= k < d && out[k] != '.' ensures exists m :: k <= m < d && out[m] == '/' {
        assert p[k] == out[k];
        var m :| k <= m < d && p[m] == '/';
        assert out[m] == '/';
      }
    }
  }

  /** The tag goes in front of the extension: splitting the output name gives
      back the same extension, and the old stem followed by the tag. */
  lemma OutputNameKeepsExtension(sanitized: string)
    ensures SplitExt(OutputName(sanitized)) == (SplitExt(sanitized).0 + SignedTag, SplitExt(sanitized).1)
  {
    var (stem, ext) := SplitExt(sanitized);
    var out := OutputName(sanitized);
    assert out == stem + SignedTag + ext;
    assert Plain(SignedTag);
    var r := SplitExt(out);
    if ext != "" {
      ExtensionSurvivesInsert(stem, SignedTag, ext);
      assert ExtensionAt(out, |r.0|);
      assert |r.0| == |stem| + |SignedTag|;
      assert r.0 == out[..|r.0|] == stem + SignedTag;
    } else {
      assert out == sanitized + SignedTag;
      NoExtensionSurvivesAppend(sanitized, SignedTag);
    }
  }

  /** A sanitised name `stem.pdf` whose stem holds no '/' and is not made of
      dots alone becomes `stem_с_подписью.pdf`. */
  lemma OutputNameOfPdf(stem: string)
    requires forall i :: 0 <= i < |stem| ==> stem[i] != '/'
    requires exists i :: 0 <= i < |stem| && stem[i] != '.'
    ensures SplitExt(stem + ".pdf") == (stem, ".pdf")
    ensures OutputName(stem + ".pdf") == stem + SignedTag + ".pdf"
  {
    var p := stem + ".pdf";
    var i :| 0 <= i < |stem| && stem[i] != '.';
    assert p[i] == stem[i];
    assert ExtensionAt(p, |stem|);
    var r := SplitExt(p);
    assert ExtensionAt(p, |r.0|);
    assert |r.0| == |stem|;
    assert r.0 == p[..|stem|] == stem;
  }

  /** Names whose only dot leads the name have no extension, so the signed
      name has none either: ".pdf" and "pdf" both become "…_с_подписью". */
  lemma LeadingDotIsNotExtension()
    ensures SplitExt(".pdf") == (".pdf", "")
    ensures OutputName("pdf") == "pdf" + SignedTag
  {
    assert !ExtensionAt(".pdf", 0);
    forall d ensures !ExtensionAt(".pdf", d) {
      if 0 < d < 4 {
        assert ".pdf"[d] != '.';
      }
    }
    forall d ensures !ExtensionAt("pdf", d) {
      if 0 <= d < 3 {
        assert "pdf"[d] != '.';
      }
    }
  }

  /** A stored upload: its client-side name and the parsed pages, or None
      when the bytes are not a readable PDF. */
  datatype Upload<P> = Upload(filename: string, pages: Option<seq<P>>)

  /** The part of the request the route looks at: the body length and the
      `file` form field, if present. */
  datatype Request<P> = Request(contentLength: nat, file: Option<Upload<P>>)

  datatype UploadError = PayloadTooLarge | NoFileSelected | NotPdf | ProcessingFailed

  function Status(e: UploadError): nat
  {
    match e
    case PayloadTooLarge => 413
    case NoFileSelected => 400
    case NotPdf => 400
    case ProcessingFailed => 500
  }

  /** The JSON answer: the signed file's name (with the document stored under
      it), or an error with its HTTP status. */
  datatype Response<P> = Signed(filename: string, document: seq<P>) | Rejected(error: UploadError)

  /** The checks before any processing, in order: the body limit (enforced by
      the framework when the form is parsed), a missing `file` field, an empty
      file name, then a ".pdf" extension in any case. */
  function ValidateUpload<P>(req: Request<P>): (r: Result<Upload<P>, UploadError>)
    ensures r.Success? <==>
              && req.contentLength <= MaxUploadBytes
              && req.file.Some?
              && req.file.value.filename != ""
              && HasPdfExtension(req.file.value.filename)
    ensures r.Success? ==> r.value == req.file.value
    ensures req.contentLength > MaxUploadBytes ==> r == Failure(PayloadTooLarge)
    ensures req.contentLength <= MaxUploadBytes && (req.file.None? || req.file.value.filename == "") ==>
              r == Failure(NoFileSelected)
    ensures req.contentLength <= MaxUploadBytes ==> r != Failure(PayloadTooLarge)
    ensures && req.contentLength <= MaxUploadBytes
            && req.file.Some? && req.file.value.filename != ""
            && !HasPdfExtension(req.file.value.filename)
            ==> r == Failure(NotPdf)
    ensures r.Failure? ==> r.error != ProcessingFailed
    ensures r.Failure? ==> Status(r.error) == (if req.contentLength > MaxUploadBytes then 413 else 400)
  {
    if req.contentLength > MaxUploadBytes then Failure(PayloadTooLarge)
    else if req.file.None? then Failure(NoFileSelected)
    else if req.file.value.filename == "" then Failure(NoFileSelected)
    else if !HasPdfExtension(req.file.value.filename) then Failure(NotPdf)
    else Success(req.file.value)
  }

  /** `upload_file`: validate, name the output after the sanitised upload
      name, and sign. An unreadable or page-less document is a 500. */
  method UploadFile<P>(req: Request<P>, sanitize: string -> string,
                       mediaBox: P -> Box, merge: (P, Overlay) -> P)
    returns (resp: Response<P>)
    ensures ValidateUpload(req).Failure? ==> resp == Rejected(ValidateUpload(req).error)
    ensures resp.Signed? <==>
              && ValidateUpload(req).Success?
              && req.file.value.pages.Some?
              && |req.file.value.pages.value| > 0
    ensures ValidateUpload(req).Success? && !resp.Signed? ==> resp == Rejected(ProcessingFailed)
    ensures resp.Signed? ==>
              var pages := req.file.value.pages.value;
              && resp.filename == OutputName(sanitize(req.file.value.filename))
              && StampedFirstPage(pages, resp.document,
                                  merge(pages[0], BuildOverlay(mediaBox(pages[0]))))
  {
    var checked := ValidateUpload(req);
    if checked.Failure? {
      return Rejected(checked.error);
    }
    var upload := checked.value;
    var outputName := OutputName(sanitize(upload.filename));
    if upload.pages.None? {
      return Rejected(ProcessingFailed);
    }
    var signed := AddSignature(upload.pages.value, mediaBox, merge);
    if signed.Failure? {
      return Rejected(ProcessingFailed);
    }
    return Signed(outputName, signed.value);
  }
}
